=== FILE: README.md ===
# Editor session-state layer in Dafny

This project models the session-state layer of the `nova` text editor (Go).
It covers two parts. The first is the entity model: buffers with line
extraction, windows, tabs with their active-window rules, and the editor
session with its defaults. The second is the in-memory persistence layer:
three identifier-keyed repositories (buffers, windows, tabs), each a map plus
an assignment counter, and the session repository. The session repository
flattens the session to identifier lists in a session file and rehydrates it
through the entity repositories.

Every entity is an immutable datatype. Every repository and the session
repository is a state value, and each state-changing operation is a pure
function from the old state to a result and a new state. `List` and
`FindByBufferId` are methods whose enumeration order is a free choice, as
Go's map iteration order is unspecified. The Go code mutates through pointers
and takes locks. Each Go call here is one atomic step. A repository `Save`
returns the entity as stored, carrying its assigned identifier, instead of
writing the identifier into the caller's object. The session file is the
abstract value `Absent | Empty | Holds(state) | Unreadable`. Read errors
on a non-empty file and JSON parse errors both collapse into `Unreadable`.
The lookups (`GetLine`, `FindById`, `List`, `FindByBufferId`) return no new
state, so they cannot change the buffer or the repository they read.

Modules, one per source file, plus two shared ones (`Outcomes`, `IdStore`):

- `Outcomes`: errors (`NotFound`, `LineOutOfRange`, `EditorDoesNotExist`,
  `StoreUnreadable`), `Option`, `Result`, `Outcome`, and the Go error texts.
- `BufferModel` (domain/model/buffer.go): `Buffer`, `NewBuffer`, `GetLine`
  over `SplitLines`, `Save`.
- `WindowModel` (domain/model/window.go): `Cursor`, `Viewport`, `Window`,
  `NewWindow`.
- `TabModel` (domain/model/tab.go): `Tab`, `NewTab`, `AddWindow`,
  `RemoveWindow`, `SetActiveWindow`.
- `EditorModel` (domain/model/editor.go): `Mode`, `EditorSettings`, `Editor`,
  `DefaultEditorSettings`, `NewEditor`.
- `IdStore`: the map-plus-counter table the three repositories share. The
  three Go files are the same apart from the entity type, the window `Save`'s
  read lock and the window-only `FindByBufferID`.
- `BufferRepository`, `WindowRepository`, `TabRepository`
  (infrastructure/persistence/memory/{buffer,window,tab}.go): the per-entity
  operations. They stamp the identifier into the entity and keep the
  invariant that every entity is stored under its own identifier.
- `EditorRepository` (infrastructure/persistence/memory/editor.go): the
  session file, `Flatten` (the Go `saveToFile`), `Get`, `Save`, `Update`, and
  `Construct` (the Go `NewEditorRepository`).

Four behaviours of the code a reader might not expect; the model follows the code:

- Removing a tab's last window keeps `ActiveWindow` pointing at the removed
  window. It is not cleared (`TabModel.RemoveLastWindowKeepsActive`).
- A save under an explicit identifier does not move the counter. A later
  save of an unassigned entity can therefore receive that identifier and
  overwrite the entry (`IdStore.ExplicitSaveCanBeOverwritten`). Identifiers
  handed to unassigned entities still strictly increase and are never handed
  out twice (`IdStore.RunAssignsFreshIds`).
- A load that fails on a missing identifier returns an error and no
  session. It has still replaced the current session with the partial one
  built so far (`EditorRepository.GetFailureLeavesPartialEditor`). A read
  or parse failure leaves the current session alone.
- `RemoveWindow` reads the active window's identifier as soon as it finds a
  match. A match on a tab with no active window is a nil dereference in Go.
  The model makes this a precondition.

## Model

| member | source | states |
|---|---|---|
| Outcomes.NatToString | infrastructure/persistence/memory/buffer.go:29 | the `%d` rendering of a natural number is at least one character, all decimal digits, more than one digit exactly from 10 up, and starts with '0' only for 0 |
| Outcomes.NatToStringValue | infrastructure/persistence/memory/buffer.go:29 | reading the rendered digits back as a decimal numeral gives the number |
| Outcomes.NatToStringUnique | infrastructure/persistence/memory/buffer.go:29 | every digit string with no leading zero (other than "0") that denotes n is the rendering of n, so with NatToStringValue the rendering is exactly the `%d` numeral |
| Outcomes.IntToStringValue | infrastructure/persistence/memory/tab.go:29 | the digits after an optional '-' denote the magnitude of the integer |
| Outcomes.IntToString | infrastructure/persistence/memory/buffer.go:29 | the `%d` rendering of an integer starts with '-' exactly when it is negative, and every other character is a decimal digit |
| Outcomes.NotFoundWindowMessage | infrastructure/persistence/memory/window.go:29 | the window not-found text for identifier 12 is "window with id 12 not found": the `%d` verb gives the decimal digits |
| Outcomes.NotFoundTabMessage | infrastructure/persistence/memory/tab.go:29 | the tab not-found text for identifier -3 is "tab with id -3 not found": a negative identifier gets a leading '-' |
| Outcomes.NotFoundBufferMessage | infrastructure/persistence/memory/buffer.go:29 | the buffer not-found text for identifier 0 is "buffer with id 0 not found" |
| Outcomes.FixedMessageExamples | domain/model/buffer.go:27 | the out-of-range and missing-session texts are "line number out of range" and "editor does not exist, cannot update" (infrastructure/persistence/memory/editor.go:122, 131) |
| BufferModel.NewBuffer | domain/model/buffer.go:15-22 | the identifier, content and path are stored unchanged, and the buffer starts unmodified |
| BufferModel.SplitLines | domain/model/buffer.go:25 | splitting gives one more line than there are line breaks (so empty text is one empty line), and no line contains a line break |
| BufferModel.JoinSplitLines | domain/model/buffer.go:25 | joining the split lines with line breaks gives back the content |
| BufferModel.SplitJoinLines | domain/model/buffer.go:25 | splitting the join of one or more break-free lines gives back those lines, so splitting is the inverse of joining |
| BufferModel.SplitLinesSingle | domain/model/buffer.go:25 | text without a line break is a single line |
| BufferModel.SplitLinesAtBreak | domain/model/buffer.go:25 | a line break splits the text into the lines before it followed by the lines after it |
| BufferModel.GetLine | domain/model/buffer.go:24-30 | fails with LineOutOfRange exactly when the index is negative or at least the line count; a returned line has no line break |
| BufferModel.GetLineReassembles | domain/model/buffer.go:24-30 | the lines GetLine returns for indices 0 to count-1, joined with line breaks, are the buffer's content |
| BufferModel.GetLineAfterBreak | domain/model/buffer.go:24-30 | line 0 is the text before the first break, and line i+1 is line i of the text after that break |
| BufferModel.GetLineOfTwoLines | domain/model/buffer.go:24-30 | text made of two break-free lines has those as lines 0 and 1, and line 2 is out of range |
| BufferModel.GetLineTwoLines | domain/model/buffer.go:24-30 | for "line1\nline2", line 0 is "line1", line 1 is "line2" and line 2 fails |
| BufferModel.GetLineEmpty | domain/model/buffer.go:25-28 | empty content has one line, "", and index 1 is out of range |
| BufferModel.Save | domain/model/buffer.go:32-34 | clears the modified flag and keeps identifier, content and path |
| BufferModel.SaveIdempotent | domain/model/buffer.go:32-34 | saving twice equals saving once, and an unmodified buffer is unchanged by saving |
| WindowModel.NewWindow | domain/model/window.go:22-29 | keeps the identifier and buffer reference, puts the cursor at 0,0 and the viewport at 0,0 with height 24 and width 80; positions are non-negative and the cursor is inside the viewport, checks the model adds |
| TabModel.NewTab | domain/model/tab.go:9-14 | keeps the identifier, has no windows and no active window, and satisfies both tab invariants |
| TabModel.FirstIndexOf | domain/model/tab.go:24-25 | finds the first position whose window has the identifier, or reports that no window has it |
| TabModel.AddWindow | domain/model/tab.go:16-21 | appends the window after the existing ones, and makes it active only when no window was active |
| TabModel.RemoveWindow | domain/model/tab.go:23-33 | removes only the first window with the identifier, keeps the rest in order, and does nothing when it is absent; the new first window becomes active only if the active window had that identifier and windows remain |
| TabModel.SetActiveWindow | domain/model/tab.go:35-42 | makes the first window with the identifier active, does nothing when none has it, and never changes the windows |
| TabModel.AddWindowKeepsInvariants | domain/model/tab.go:16-21 | after adding, the active window is one of the windows and a non-empty tab has one |
| TabModel.SetActiveWindowKeepsInvariants | domain/model/tab.go:35-42 | choosing the active window keeps it among the windows and keeps a non-empty tab's designation |
| TabModel.RemoveWindowKeepsInvariants | domain/model/tab.go:23-33 | after removal the active window is still one of the windows unless no window remains, and a tab that had an active window keeps one, even when its last window is removed |
| TabModel.RemoveLastWindowKeepsActive | domain/model/tab.go:27-29 | removing the only window leaves an empty tab whose active window is the removed one |
| TabModel.TabWindowScenario | infrastructure/persistence/memory/tab_test.go:149-203 | windows 1, 2, 3 added: 1 is active; choosing 2 makes it active; removing 2 leaves [1, 3] with 1 active |
| EditorModel.DefaultEditorSettings | domain/model/editor.go:19-27 | tab size 4, spaces for tabs, line numbers and syntax highlighting on, theme "default"; the tab size is positive, a check the model adds |
| EditorModel.NewEditor | domain/model/editor.go:35-43 | no buffers, windows or tabs, mode NormalMode (0), settings equal to DefaultEditorSettings |
| IdStore.New | infrastructure/persistence/memory/buffer.go:16-21 | a new store is empty and its counter is 1 |
| IdStore.Find | infrastructure/persistence/memory/buffer.go:23-32 | succeeds exactly when the identifier is stored, returns the stored entity, and otherwise fails with NotFound for that kind and identifier |
| IdStore.AssignedId | infrastructure/persistence/memory/buffer.go:38-41 | unassigned (0) takes the counter, any other identifier is kept, and with a valid counter the result is never 0 |
| IdStore.Save | infrastructure/persistence/memory/buffer.go:34-44 | stores the entity under its assigned identifier, keeps every other entry, and advances the counter by one only for an unassigned entity |
| IdStore.Update | infrastructure/persistence/memory/buffer.go:46-55 | an absent identifier fails with NotFound and changes nothing; a present one has its entity replaced with the key set and every other entry unchanged |
| IdStore.Delete | infrastructure/persistence/memory/buffer.go:57-66 | an absent identifier fails with NotFound and changes nothing; a present one is removed alone; the counter never moves and a later lookup fails |
| IdStore.List | infrastructure/persistence/memory/buffer.go:68-77 | returns as many entities as are stored, each stored identifier's entity exactly once, in some order |
| IdStore.RunAssignsFreshIds | infrastructure/persistence/memory/buffer.go:38-41 | over any sequence of saves, updates and deletes the counter never decreases, and identifiers given to unassigned entities strictly increase and lie between the starting and final counter |
| IdStore.ExplicitSaveCanBeOverwritten | infrastructure/persistence/memory/buffer.go:38-42 | a save under explicit identifier 1 leaves the counter at 1, so the next unassigned save overwrites that entry |
| BufferRepository.New | infrastructure/persistence/memory/buffer.go:16-21 | an empty buffer repository with counter 1 in which every key matches its buffer |
| BufferRepository.FindById | infrastructure/persistence/memory/buffer.go:23-32 | returns the stored buffer if the identifier is present, and "buffer not found" otherwise |
| BufferRepository.Save | infrastructure/persistence/memory/buffer.go:34-44 | an unassigned buffer gets the counter as identifier and the counter advances; an explicit identifier is kept with the counter unchanged; the buffer is then found under it, other lookups are unchanged, and keys keep matching identifiers |
| BufferRepository.Update | infrastructure/persistence/memory/buffer.go:46-55 | an absent identifier fails with NotFound and changes nothing; a present one is then found with the new buffer, other lookups unchanged |
| BufferRepository.Delete | infrastructure/persistence/memory/buffer.go:57-66 | an absent identifier fails and changes nothing; a present one is removed alone, the size drops by one, and a later FindById fails |
| BufferRepository.List | infrastructure/persistence/memory/buffer.go:68-77 | returns one buffer per stored identifier, its length equal to the number of stored buffers |
| BufferRepository.SaveThenFind | infrastructure/persistence/memory/buffer_test.go:19-40 | a saved buffer gets a non-zero identifier and is found under it with the content it was saved with |
| WindowRepository.New | infrastructure/persistence/memory/window.go:16-21 | an empty window repository with counter 1 in which every key matches its window |
| WindowRepository.FindById | infrastructure/persistence/memory/window.go:23-32 | returns the stored window if the identifier is present, and "window not found" otherwise |
| WindowRepository.Save | infrastructure/persistence/memory/window.go:34-44 | an unassigned window gets the counter as identifier and the counter advances; an explicit identifier is kept with the counter unchanged; the window is then found under it and other lookups are unchanged |
| WindowRepository.Update | infrastructure/persistence/memory/window.go:46-55 | an absent identifier fails and changes nothing; a present one is replaced as a whole, buffer reference included |
| WindowRepository.Delete | infrastructure/persistence/memory/window.go:57-66 | an absent identifier fails and changes nothing; a present one is removed alone and a later FindById fails |
| WindowRepository.List | infrastructure/persistence/memory/window.go:68-77 | returns one window per stored identifier, its length equal to the number of stored windows |
| WindowRepository.FindByBufferId | infrastructure/persistence/memory/window.go:79-90 | returns exactly the stored windows showing the buffer, each once, and an empty result rather than an error when none does |
| TabRepository.New | infrastructure/persistence/memory/tab.go:16-21 | an empty tab repository with counter 1 in which every key matches its tab |
| TabRepository.FindById | infrastructure/persistence/memory/tab.go:23-32 | returns the stored tab if the identifier is present, and "tab not found" otherwise |
| TabRepository.Save | infrastructure/persistence/memory/tab.go:34-44 | an unassigned tab gets the counter as identifier and the counter advances; an explicit identifier is kept with the counter unchanged; the tab is then found under it and other lookups are unchanged |
| TabRepository.Update | infrastructure/persistence/memory/tab.go:46-55 | an absent identifier fails and changes nothing; a present one is replaced as a whole, windows and active window included |
| TabRepository.Delete | infrastructure/persistence/memory/tab.go:57-66 | an absent identifier fails and changes nothing; a present one is removed alone and a later FindById fails |
| TabRepository.List | infrastructure/persistence/memory/tab.go:68-77 | returns one tab per stored identifier, its length equal to the number of stored tabs |
| TabRepository.SaveDeleteFind | infrastructure/persistence/memory/tab_test.go:75-93 | a saved and then deleted tab is not found, and the next unassigned save gets a larger identifier |
| EditorRepository.Ids | infrastructure/persistence/memory/editor.go:146-156 | one identifier per element, in the same order |
| EditorRepository.Flatten | infrastructure/persistence/memory/editor.go:137-156 | the three identifier lists have the lengths and order of the session's sequences, element i being the identifier of entity i, and mode and settings are copied |
| EditorRepository.Resolve | infrastructure/persistence/memory/editor.go:78-100 | looks identifiers up in order and stops at the first missing one: what it returns is the looked-up prefix, with NotFound for the first missing identifier, and no error exactly when every identifier is stored |
| EditorRepository.Get | infrastructure/persistence/memory/editor.go:45-103 | a missing or empty file gives the default session; an unreadable one fails with nothing changed; a readable state succeeds exactly when every listed identifier resolves, and then gives each list's entities in order with the stored mode and settings, which become the current session |
| EditorRepository.Save | infrastructure/persistence/memory/editor.go:105-114 | overwrites the file with the flattened session and adopts the session as current only when none was set |
| EditorRepository.Update | infrastructure/persistence/memory/editor.go:116-135 | a missing or empty file fails with EditorDoesNotExist and nothing is written; otherwise it writes what Save writes; the current session is never changed |
| EditorRepository.Construct | infrastructure/persistence/memory/editor.go:21-35 | the repository starts with the loaded session, or with the default session when loading fails or there is no readable state |
| EditorRepository.ResolvedKeepsIds | infrastructure/persistence/memory/editor.go:78-100 | looking up identifiers in a store that keys every entity by its own identifier gives entities with those identifiers |
| EditorRepository.SaveThenGet | infrastructure/persistence/memory/editor.go:137-164 | after Save, Get succeeds when every listed identifier is stored, and flattening the loaded session gives the saved mode, settings and identifier sequences |
| EditorRepository.SaveThenGetExact | infrastructure/persistence/memory/editor.go:70-100 | when the repositories hold exactly the session's entities, Save then Get gives back the same session |
| EditorRepository.SaveThenGetNeedsEveryId | infrastructure/persistence/memory/editor.go:78-100 | after Save, Get succeeds if and only if every tab, window and buffer identifier of the session is stored |
| EditorRepository.GetFailureLeavesPartialEditor | infrastructure/persistence/memory/editor.go:70-100 | a failed load names the first missing identifier, trying tabs before windows before buffers, and leaves a partial session as current: lists looked up before the failing one are complete and lists after it are empty |
| EditorRepository.GetFailureOverwritesEditor | infrastructure/persistence/memory/editor.go:70-83 | a load failing on its first tab still replaces the previous current session |
| EditorRepository.UpdateBeforeSaveFails | infrastructure/persistence/memory/editor_test.go:115-126 | over an empty session file the repository starts from the default session, and Update fails with "editor does not exist, cannot update" and leaves the file empty |
| EditorRepository.UpdateAfterSave | infrastructure/persistence/memory/editor_test.go:91-113 | after a Save, Update succeeds and a later Get sees the updated settings |

## Left out

- Locking: the `sync.RWMutex` of every repository and of the session repository. Each call is one atomic step, so concurrent interleavings and the concurrency tests are not modelled.
- The window repository's `Save` takes only the read lock (infrastructure/persistence/memory/window.go:35). Concurrent saves can race on the map and the counter. A sequential model cannot express that race.
- The session repository's `Get` takes only the read lock (infrastructure/persistence/memory/editor.go:46), yet it assigns the current session (editor.go:53, 61, 70) and appends to it (editor.go:83, 91, 99). Concurrent loads can race on it. A sequential model cannot express that race.
- `TabModel.RemoveWindow`: requires an active window whenever a window with the identifier is present. The Go code dereferences a nil `ActiveWindow` in that case (domain/model/tab.go:27) and panics; the panic is not modelled.
- Pointer aliasing: `FindByID` returns live pointers, `Save` writes the identifier into the caller's object, and `RemoveWindow` shifts the shared backing array. Entities are values, and `Save` returns the stamped entity.
- File I/O and JSON: `os.ReadFile`, `os.Stat`, `os.WriteFile`, `json.Marshal` and `json.Unmarshal`. The session file is an abstract value, and the byte format and the `CurretMode` field spelling are not modelled.
- A zero-length session file that cannot be read is not modelled. Go's `Get` fails on the read (infrastructure/persistence/memory/editor.go:49-56), while `Update`'s `Stat` succeeds and it refuses at editor.go:130-131. Neither `Empty` nor `Unreadable` behaves that way, and the model has no file state for it.
- `Outcomes.Message`: the text for `StoreUnreadable` is a placeholder. Go passes the `os` or `json` error through unchanged (infrastructure/persistence/memory/editor.go:56, 67), and its text is not modelled. The not-found texts are the `fmt.Errorf` formats of buffer.go, window.go and tab.go, lines 29, 51 and 62.
- `EditorRepository.Save`, `EditorRepository.Update`: marshal and write failures are not modelled, so both always write. A `Stat` failure other than "does not exist" (the "failed to get file info" error) is not modelled either. An `Unreadable` file lets `Update` write, as a file that exists and is non-empty does.
- `BufferModel.Buffer`: content is a sequence of characters. The UTF-8 decoding of `[]rune(content)`, which replaces invalid bytes, is not modelled.
- `IdStore.Save`: Go's 64-bit `int` would wrap after 2^63 saves. The counter here is an unbounded integer.
- The `domain/repository` interfaces carry no logic. Their editor interface names a `Load` the memory package does not implement.
- `fmt.Printf` logging in `NewEditorRepository`, the gomock mocks, and the test files themselves. The tests are cited only as scenarios.

=== FILE: buffer.dfy ===
/** A document buffer: its text, the file it belongs to and its
    modified flag, with line extraction by splitting on line breaks. */
module BufferModel {
  import opened Outcomes

  /** A document. `content` is the text as characters, `filePath` is ""
      for a buffer never saved to disk, and `isModified` records unsaved
      changes. */
  datatype Buffer = Buffer(id: int, content: string, filePath: string, isModified: bool)

  function NewBuffer(id: int, content: string, filePath: string): (b: Buffer)
    ensures b.id == id && b.content == content && b.filePath == filePath
    ensures !b.isModified
  {
    Buffer(id, content, filePath, false)
  }

  /** Number of line-break characters in `s`. */
  function NewlineCount(s: string): nat {
    if |s| == 0 then 0 else (if s[0] == '\n' then 1 else 0) + NewlineCount(s[1..])
  }

  /** The pieces of `s` between line breaks, as splitting on "\n" gives
      them: always at least one piece, and one more than there are line
      breaks. */
  function SplitLines(s: string): (lines: seq<string>)
    ensures |lines| == NewlineCount(s) + 1
    ensures forall i :: 0 <= i < |lines| ==> '\n' !in lines[i]
  {
    if |s| == 0 then [""]
    else
      var rest := SplitLines(s[1..]);
      if s[0] == '\n' then [""] + rest
      else [[s[0]] + rest[0]] + rest[1..]
  }

  /** The lines glued back together with a line break between neighbours. */
  function JoinLines(lines: seq<string>): string {
    if |lines| == 0 then ""
    else if |lines| == 1 then lines[0]
    else lines[0] + "\n" + JoinLines(lines[1..])
  }

  lemma JoinLinesCons(x: string, rest: seq<string>)
    requires |rest| >= 1
    ensures JoinLines([x] + rest) == x + "\n" + JoinLines(rest)
  {
    assert ([x] + rest)[1..] == rest;
  }

  /** Prefixing a character to the first line prefixes it to the join. */
  lemma JoinLinesPrefixFirst(c: char, head: string, tail: seq<string>)
    ensures JoinLines([[c] + head] + tail) == [c] + JoinLines([head] + tail)
  {
    if |tail| == 0 {
      assert [[c] + head] + tail == [[c] + head];
      assert [head] + tail == [head];
    } else {
      JoinLinesCons([c] + head, tail);
      JoinLinesCons(head, tail);
      assert ([c] + head) + "\n" + JoinLines(tail) == [c] + (head + "\n" + JoinLines(tail));
    }
  }

  /** Splitting and joining give back the text. */
  lemma {:induction false} JoinSplitLines(s: string)
    ensures JoinLines(SplitLines(s)) == s
  {
    if |s| > 0 {
      var rest := SplitLines(s[1..]);
      JoinSplitLines(s[1..]);
      assert s == [s[0]] + s[1..];
      if s[0] == '\n' {
        assert SplitLines(s) == [""] + rest;
        JoinLinesCons("", rest);
      } else {
        assert SplitLines(s) == [[s[0]] + rest[0]] + rest[1..];
        assert rest == [rest[0]] + rest[1..];
        JoinLinesPrefixFirst(s[0], rest[0], rest[1..]);
      }
    }
  }

  /** Text with no line break is a single line. */
  lemma {:induction false} SplitLinesSingle(s: string)
    requires '\n' !in s
    ensures SplitLines(s) == [s]
  {
    if |s| > 0 {
      assert s == [s[0]] + s[1..];
      assert '\n' !in s[1..];
      SplitLinesSingle(s[1..]);
    }
  }

  /** A line break separates the lines before it from the lines after it. */
  lemma {:induction false} SplitLinesAtBreak(a: string, b: string)
    ensures SplitLines(a + "\n" + b) == SplitLines(a) + SplitLines(b)
  {
    if |a| == 0 {
      assert a + "\n" + b == "\n" + b;
      assert ("\n" + b)[1..] == b;
    } else {
      var s := a + "\n" + b;
      assert s[0] == a[0];
      assert s[1..] == a[1..] + "\n" + b;
      SplitLinesAtBreak(a[1..], b);
    }
  }

  /** Joining lines that hold no line break and splitting again gives back
      the same lines. */
  lemma {:induction false} SplitJoinLines(lines: seq<string>)
    requires |lines| >= 1
    requires forall i :: 0 <= i < |lines| ==> '\n' !in lines[i]
    ensures SplitLines(JoinLines(lines)) == lines
  {
    if |lines| == 1 {
      SplitLinesSingle(lines[0]);
    } else {
      SplitJoinLines(lines[1..]);
      SplitLinesSingle(lines[0]);
      SplitLinesAtBreak(lines[0], JoinLines(lines[1..]));
      assert lines == [lines[0]] + lines[1..];
    }
  }

  /** Number of lines GetLine accepts indices for. */
  function LineCount(b: Buffer): nat {
    |SplitLines(b.content)|
  }

  /** The zero-based line `lineNum` of the buffer, or LineOutOfRange when
      the index is negative or not below the line count. */
  function GetLine(b: Buffer, lineNum: int): (r: Result<string>)
    ensures r.Ok? <==> 0 <= lineNum <= NewlineCount(b.content)
    ensures r.Err? ==> r.error == LineOutOfRange
    ensures r.Ok? ==> '\n' !in r.value
  {
    var lines := SplitLines(b.content);
    if lineNum < 0 || lineNum >= |lines| then Err(LineOutOfRange)
    else Ok(lines[lineNum])
  }

  /** Every line GetLine returns, in order, joined with line breaks, is the
      buffer's content. */
  lemma GetLineReassembles(b: Buffer)
    ensures JoinLines(seq(LineCount(b), i requires 0 <= i < LineCount(b) => GetLine(b, i).value)) == b.content
  {
    var lines := seq(LineCount(b), i requires 0 <= i < LineCount(b) => GetLine(b, i).value);
    assert lines == SplitLines(b.content);
    JoinSplitLines(b.content);
  }

  /** Line i is the text after the i-th line break: splitting text made of
      a first line, a break and a remainder puts the first line at index
      0 and shifts every line of the remainder up by one. */
  lemma GetLineAfterBreak(b: Buffer, first: string, rest: string, i: int)
    requires '\n' !in first
    requires i >= 0
    requires b.content == first + "\n" + rest
    ensures GetLine(b, 0) == Ok(first)
    ensures GetLine(b, i + 1) == GetLine(b.(content := rest), i)
  {
    SplitLinesAtBreak(first, rest);
    SplitLinesSingle(first);
  }

  /** Text made of two break-free lines has exactly those two lines. */
  lemma GetLineOfTwoLines(b: Buffer, first: string, second: string)
    requires '\n' !in first && '\n' !in second
    requires b.content == first + "\n" + second
    ensures GetLine(b, 0) == Ok(first)
    ensures GetLine(b, 1) == Ok(second)
    ensures GetLine(b, 2) == Err(LineOutOfRange)
  {
    SplitLinesAtBreak(first, second);
    SplitLinesSingle(first);
    SplitLinesSingle(second);
  }

  /** The two-line example: lines 0 and 1 exist, line 2 does not. */
  lemma GetLineTwoLines()
    ensures GetLine(NewBuffer(0, "line1\nline2", ""), 0) == Ok("line1")
    ensures GetLine(NewBuffer(0, "line1\nline2", ""), 1) == Ok("line2")
    ensures GetLine(NewBuffer(0, "line1\nline2", ""), 2) == Err(LineOutOfRange)
  {
    var first, second := "line1", "line2";
    assert "line1\nline2" == first + "\n" + second;
    GetLineOfTwoLines(NewBuffer(0, "line1\nline2", ""), first, second);
  }

  /** Empty content has exactly one line, the empty one. */
  lemma GetLineEmpty(b: Buffer)
    requires b.content == ""
    ensures LineCount(b) == 1
    ensures GetLine(b, 0) == Ok("")
    ensures GetLine(b, 1) == Err(LineOutOfRange)
  {
  }

  /** Marks the buffer as synchronised with its file. */
  function Save(b: Buffer): (r: Buffer)
    ensures !r.isModified
    ensures r.id == b.id && r.content == b.content && r.filePath == b.filePath
  {
    b.(isModified := false)
  }

  /** Saving twice is the same as saving once, and an unmodified buffer is
      already saved. */
  lemma SaveIdempotent(b: Buffer)
    ensures Save(Save(b)) == Save(b)
    ensures !b.isModified ==> Save(b) == b
  {
  }
}

=== FILE: buffer_repository.dfy ===
/** The in-memory buffer repository: buffers keyed by identifier, with a
    counter that assigns identifiers to new buffers. */
module BufferRepository {
  import opened Outcomes
  import BufferModel
  import IdStore

  type Buffer = BufferModel.Buffer
  type BufferRepo = IdStore.Store<Buffer>

  /** The identifier a buffer carries. */
  function IdOf(b: Buffer): int {
    b.id
  }

  /** An empty repository whose first assigned identifier is 1. */
  function New(): (r: BufferRepo)
    ensures r.entries == map[] && r.nextId == 1
    ensures IdStore.Valid(r) && IdStore.KeysMatchIds(r, IdOf)
  {
    IdStore.New()
  }

  function FindById(r: BufferRepo, id: int): (res: Result<Buffer>)
    ensures res.Ok? <==> id in r.entries
    ensures res.Ok? ==> res.value == r.entries[id]
    ensures res.Err? ==> res.error == NotFound(BufferEntity, id)
  {
    IdStore.Find(r, BufferEntity, id)
  }

  /** Stores `b`, first giving it the counter's identifier when it carries
      the unassigned identifier 0; returns the buffer as stored. Any buffer
      already under that identifier is replaced. Never fails. */
  function Save(r: BufferRepo, b: Buffer): (res: (Buffer, BufferRepo))
    ensures b.id == 0 ==> res.0.id == r.nextId && res.1.nextId == r.nextId + 1
    ensures b.id != 0 ==> res.0 == b && res.1.nextId == r.nextId
    ensures res.0 == b.(id := res.0.id)
    ensures IdStore.Valid(r) ==> res.0.id != 0
    ensures FindById(res.1, res.0.id) == Ok(res.0)
    ensures forall k :: k != res.0.id ==> FindById(res.1, k) == FindById(r, k)
    ensures IdStore.KeysMatchIds(r, IdOf) ==> IdStore.KeysMatchIds(res.1, IdOf)
  {
    var saved := b.(id := IdStore.AssignedId(r, b.id));
    (saved, IdStore.Save(r, b.id, saved))
  }

  /** Replaces the buffer stored under `b`'s identifier; NotFound with no
      change when there is none. */
  function Update(r: BufferRepo, b: Buffer): (res: (Outcome, BufferRepo))
    ensures b.id !in r.entries ==> res.0 == Fail(NotFound(BufferEntity, b.id)) && res.1 == r
    ensures b.id in r.entries ==> res.0 == Pass && FindById(res.1, b.id) == Ok(b)
    ensures forall k :: k != b.id ==> FindById(res.1, k) == FindById(r, k)
    ensures res.1.nextId == r.nextId
    ensures IdStore.KeysMatchIds(r, IdOf) ==> IdStore.KeysMatchIds(res.1, IdOf)
  {
    IdStore.Update(r, BufferEntity, b.id, b)
  }

  /** Removes the buffer stored under `id`; NotFound with no change when
      there is none. Windows showing the buffer are not touched. */
  function Delete(r: BufferRepo, id: int): (res: (Outcome, BufferRepo))
    ensures id !in r.entries ==> res.0 == Fail(NotFound(BufferEntity, id)) && res.1 == r
    ensures id in r.entries ==> res.0 == Pass && |res.1.entries| == |r.entries| - 1
    ensures FindById(res.1, id) == Err(NotFound(BufferEntity, id))
    ensures forall k :: k != id ==> FindById(res.1, k) == FindById(r, k)
    ensures res.1.nextId == r.nextId
    ensures IdStore.KeysMatchIds(r, IdOf) ==> IdStore.KeysMatchIds(res.1, IdOf)
  {
    IdStore.Delete(r, BufferEntity, id)
  }

  /** Every stored buffer once, in no promised order. */
  method List(r: BufferRepo) returns (buffers: seq<Buffer>, ghost order: seq<int>)
    ensures |buffers| == |r.entries|
    ensures |order| == |buffers| && IdStore.Enumerates(order, r.entries.Keys)
    ensures forall i :: 0 <= i < |buffers| ==> FindById(r, order[i]) == Ok(buffers[i])
  {
    buffers, order := IdStore.List(r);
  }

  /** A saved buffer can be found again under the identifier it was given,
      with the content it was saved with. */
  lemma SaveThenFind(r: BufferRepo, b: Buffer)
    requires IdStore.Valid(r)
    ensures var (saved, r') := Save(r, b);
      && saved.id != 0
      && FindById(r', saved.id).Ok?
      && FindById(r', saved.id).value.content == b.content
  {
  }
}

=== FILE: editor.dfy ===
/** The editor session: the flat registries of tabs, windows and buffers,
    the current mode and the editor-wide settings. */
module EditorModel {
  import opened BufferModel
  import opened WindowModel
  import opened TabModel

  /** The editor mode, an integer enumeration. */
  newtype Mode = int

  /** The only mode defined so far. */
  const NormalMode: Mode := 0

  datatype EditorSettings = EditorSettings(
    tabSize: int,
    insertSpacesForTab: bool,
    lineNumbers: bool,
    syntaxHighlighting: bool,
    theme: string)

  /** The three sequences are parallel registries, not a tree derived
      from the tabs. */
  datatype Editor = Editor(
    buffers: seq<Buffer>,
    windows: seq<Window>,
    tabs: seq<Tab>,
    currentMode: Mode,
    settings: EditorSettings)

  /** A tab is at least one column wide. The Go code states no such rule;
      this is a sanity check the model adds about the defaults. */
  predicate ValidSettings(s: EditorSettings) {
    s.tabSize >= 1
  }

  /** Four-column tabs inserted as spaces, line numbers and syntax
      highlighting on, the "default" theme. */
  function DefaultEditorSettings(): (s: EditorSettings)
    ensures s.tabSize == 4
    ensures s.insertSpacesForTab && s.lineNumbers && s.syntaxHighlighting
    ensures s.theme == "default"
    ensures ValidSettings(s)
  {
    EditorSettings(4, true, true, true, "default")
  }

  /** An empty session in normal mode with the default settings. */
  function NewEditor(): (e: Editor)
    ensures e.buffers == [] && e.windows == [] && e.tabs == []
    ensures e.currentMode == NormalMode && e.currentMode as int == 0
    ensures e.settings == DefaultEditorSettings() && ValidSettings(e.settings)
  {
    Editor([], [], [], NormalMode, DefaultEditorSettings())
  }
}

=== FILE: editor_repository.dfy ===
/** The session repository: it owns the current editor session and its
    durable form, which replaces the three entity sequences by their
    identifier lists; loading re-expands those lists through the entity
    repositories. The session file is an abstract value here. */
module EditorRepository {
  import opened Outcomes
  import opened EditorModel
  import BufferModel
  import WindowModel
  import TabModel
  import IdStore
  import BufferRepository
  import WindowRepository
  import TabRepository

  /** What the session file holds: the identifiers of the tabs, windows
      and buffers in session order, the mode and the settings. */
  datatype EditorState = EditorState(
    tabIds: seq<int>,
    windowIds: seq<int>,
    bufferIds: seq<int>,
    currentMode: Mode,
    settings: EditorSettings)

  /** The session file: missing, zero-length, holding a readable state,
      or present and non-empty but impossible to read or parse. */
  datatype Backing = Absent | Empty | Holds(state: EditorState) | Unreadable

  /** The repository's own state: the current session, if one was set, and
      the session file. The entity repositories it consults are passed to
      Get explicitly. */
  datatype EditorRepo = EditorRepo(editor: Option<Editor>, backing: Backing)

  /** The store has no session yet: Get gives the default session and
      Update refuses. */
  predicate NoSession(b: Backing) {
    b.Absent? || b.Empty?
  }

  /** The identifier of each element, in order. */
  function Ids<T>(xs: seq<T>, idOf: T -> int): (ids: seq<int>)
    ensures |ids| == |xs|
    ensures forall i :: 0 <= i < |xs| ==> ids[i] == idOf(xs[i])
  {
    if |xs| == 0 then [] else [idOf(xs[0])] + Ids(xs[1..], idOf)
  }

  /** The durable form of a session: element i of each identifier list is
      the identifier of entity i of the matching sequence; mode and
      settings are copied as they are. */
  function Flatten(e: Editor): (st: EditorState)
    ensures |st.tabIds| == |e.tabs| && |st.windowIds| == |e.windows| && |st.bufferIds| == |e.buffers|
    ensures forall i :: 0 <= i < |e.tabs| ==> st.tabIds[i] == e.tabs[i].id
    ensures forall i :: 0 <= i < |e.windows| ==> st.windowIds[i] == e.windows[i].id
    ensures forall i :: 0 <= i < |e.buffers| ==> st.bufferIds[i] == e.buffers[i].id
    ensures st.currentMode == e.currentMode && st.settings == e.settings
  {
    EditorState(
      Ids(e.tabs, TabRepository.IdOf),
      Ids(e.windows, WindowRepository.IdOf),
      Ids(e.buffers, BufferRepository.IdOf),
      e.currentMode,
      e.settings)
  }

  /** Every identifier of `ids` is stored in `s`. */
  ghost predicate AllFound<T>(ids: seq<int>, s: IdStore.Store<T>) {
    forall i :: 0 <= i < |ids| ==> ids[i] in s.entries
  }

  /** `xs` is what looking up the first |xs| identifiers of `ids` in `s`
      gives, in order. */
  ghost predicate ResolvedPrefix<T>(xs: seq<T>, ids: seq<int>, s: IdStore.Store<T>) {
    && |xs| <= |ids|
    && forall i :: 0 <= i < |xs| ==> ids[i] in s.entries && xs[i] == s.entries[ids[i]]
  }

  /** `xs` is what looking up every identifier of `ids` in `s` gives. */
  ghost predicate Resolved<T>(xs: seq<T>, ids: seq<int>, s: IdStore.Store<T>) {
    ResolvedPrefix(xs, ids, s) && |xs| == |ids|
  }

  /** Looks up `ids` one after another, stopping at the first identifier
      that is not found: the entities found so far, and the lookup error
      if one occurred. */
  function Resolve<T>(ids: seq<int>, s: IdStore.Store<T>, kind: EntityKind): (r: (seq<T>, Option<Error>))
    ensures ResolvedPrefix(r.0, ids, s)
    ensures r.1.None? <==> AllFound(ids, s)
    ensures r.1.None? ==> |r.0| == |ids|
    ensures r.1.Some? ==> |r.0| < |ids| && ids[|r.0|] !in s.entries && r.1.value == NotFound(kind, ids[|r.0|])
  {
    if |ids| == 0 then ([], None)
    else
      match IdStore.Find(s, kind, ids[0])
      case Err(e) => ([], Some(e))
      case Ok(x) =>
        var rest := Resolve(ids[1..], s, kind);
        assert forall i :: 1 <= i < |ids| ==> ids[i] == ids[1..][i - 1];
        ([x] + rest.0, rest.1)
  }

  /** Loads the session. A missing or empty file gives the default session.
      A readable state is rehydrated list by list, tabs first, then
      windows, then buffers; the first identifier that does not resolve
      fails the whole load. As in the Go code, the current session is
      replaced by the session under construction before any lookup, so a
      failed load leaves a partial session behind. An unreadable file
      fails without touching the current session. */
  function Get(
    er: EditorRepo,
    tabs: TabRepository.TabRepo,
    windows: WindowRepository.WindowRepo,
    buffers: BufferRepository.BufferRepo): (res: (Result<Editor>, EditorRepo))
    ensures res.1.backing == er.backing
    ensures NoSession(er.backing) ==> res.0 == Ok(NewEditor()) && res.1.editor == Some(NewEditor())
    ensures er.backing.Unreadable? ==> res.0 == Err(StoreUnreadable) && res.1 == er
    ensures er.backing.Holds? ==>
      (res.0.Ok? <==>
        && AllFound(er.backing.state.tabIds, tabs)
        && AllFound(er.backing.state.windowIds, windows)
        && AllFound(er.backing.state.bufferIds, buffers))
    ensures er.backing.Holds? ==>
      && res.1.editor.Some?
      && res.1.editor.value.currentMode == er.backing.state.currentMode
      && res.1.editor.value.settings == er.backing.state.settings
    ensures res.0.Ok? ==> res.1.editor == Some(res.0.value)
    ensures er.backing.Holds? && res.0.Ok? ==>
      && Resolved(res.0.value.tabs, er.backing.state.tabIds, tabs)
      && Resolved(res.0.value.windows, er.backing.state.windowIds, windows)
      && Resolved(res.0.value.buffers, er.backing.state.bufferIds, buffers)
  {
    match er.backing
    case Absent => (Ok(NewEditor()), er.(editor := Some(NewEditor())))
    case Empty => (Ok(NewEditor()), er.(editor := Some(NewEditor())))
    case Unreadable => (Err(StoreUnreadable), er)
    case Holds(st) =>
      var base := Editor([], [], [], st.currentMode, st.settings);
      var ts := Resolve(st.tabIds, tabs, TabEntity);
      if ts.1.Some? then (Err(ts.1.value), er.(editor := Some(base.(tabs := ts.0))))
      else
        var ws := Resolve(st.windowIds, windows, WindowEntity);
        if ws.1.Some? then (Err(ws.1.value), er.(editor := Some(base.(tabs := ts.0, windows := ws.0))))
        else
          var bs := Resolve(st.bufferIds, buffers, BufferEntity);
          var e := base.(tabs := ts.0, windows := ws.0, buffers := bs.0);
          if bs.1.Some? then (Err(bs.1.value), er.(editor := Some(e)))
          else (Ok(e), er.(editor := Some(e)))
  }

  /** Writes the session's durable form over whatever the file held, and
      adopts the session as current only when none was set. */
  function Save(er: EditorRepo, e: Editor): (er': EditorRepo)
    ensures er'.backing == Holds(Flatten(e))
    ensures er.editor.None? ==> er'.editor == Some(e)
    ensures er.editor.Some? ==> er'.editor == er.editor
  {
    EditorRepo(if er.editor.None? then Some(e) else er.editor, Holds(Flatten(e)))
  }

  /** Like Save, but only when the file already holds something: a missing
      or empty file fails with EditorDoesNotExist and nothing is written.
      The current session is left alone. */
  function Update(er: EditorRepo, e: Editor): (res: (Outcome, EditorRepo))
    ensures NoSession(er.backing) ==> res.0 == Fail(EditorDoesNotExist) && res.1 == er
    ensures !NoSession(er.backing) ==> res.0 == Pass && res.1.backing == Save(er, e).backing
    ensures res.1.editor == er.editor
  {
    if NoSession(er.backing) then (Fail(EditorDoesNotExist), er)
    else (Pass, er.(backing := Holds(Flatten(e))))
  }

  /** The repository as constructed over a session file: it loads the
      session and falls back to the default session when loading fails,
      so it always has a current session. */
  function Construct(
    backing: Backing,
    tabs: TabRepository.TabRepo,
    windows: WindowRepository.WindowRepo,
    buffers: BufferRepository.BufferRepo): (er: EditorRepo)
    ensures er.backing == backing
    ensures Get(EditorRepo(None, backing), tabs, windows, buffers).0.Err? ==> er.editor == Some(NewEditor())
    ensures Get(EditorRepo(None, backing), tabs, windows, buffers).0.Ok? ==>
      er.editor == Some(Get(EditorRepo(None, backing), tabs, windows, buffers).0.value)
    ensures !backing.Holds? ==> er.editor == Some(NewEditor())
  {
    var loaded := Get(EditorRepo(None, backing), tabs, windows, buffers);
    var e := if loaded.0.Ok? then loaded.0.value else NewEditor();
    loaded.1.(editor := Some(e))
  }

  /** Looking up the identifiers of `xs` in a store that keeps every entity
      under its own identifier gives entities with the same identifiers. */
  lemma {:induction false} ResolvedKeepsIds<T>(xs: seq<T>, ys: seq<T>, s: IdStore.Store<T>, idOf: T -> int)
    requires IdStore.KeysMatchIds(s, idOf)
    requires Resolved(ys, Ids(xs, idOf), s)
    ensures Ids(ys, idOf) == Ids(xs, idOf)
  {
    var a, b := Ids(ys, idOf), Ids(xs, idOf);
    assert |a| == |b|;
    forall i | 0 <= i < |a|
      ensures a[i] == b[i]
    {
      assert ys[i] == s.entries[b[i]];
    }
  }

  /** Round trip: after saving a session whose every tab, window and buffer
      identifier is stored in the repositories, loading succeeds and gives
      a session with the same mode, settings and identifier sequences. */
  lemma SaveThenGet(
    er: EditorRepo,
    e: Editor,
    tabs: TabRepository.TabRepo,
    windows: WindowRepository.WindowRepo,
    buffers: BufferRepository.BufferRepo)
    requires IdStore.KeysMatchIds(tabs, TabRepository.IdOf)
    requires IdStore.KeysMatchIds(windows, WindowRepository.IdOf)
    requires IdStore.KeysMatchIds(buffers, BufferRepository.IdOf)
    requires forall i :: 0 <= i < |e.tabs| ==> e.tabs[i].id in tabs.entries
    requires forall i :: 0 <= i < |e.windows| ==> e.windows[i].id in windows.entries
    requires forall i :: 0 <= i < |e.buffers| ==> e.buffers[i].id in buffers.entries
    ensures Get(Save(er, e), tabs, windows, buffers).0.Ok?
    ensures Flatten(Get(Save(er, e), tabs, windows, buffers).0.value) == Flatten(e)
    ensures Get(Save(er, e), tabs, windows, buffers).0.value.currentMode == e.currentMode
    ensures Get(Save(er, e), tabs, windows, buffers).0.value.settings == e.settings
  {
    var st := Flatten(e);
    var loaded := Get(Save(er, e), tabs, windows, buffers).0;
    assert AllFound(st.tabIds, tabs) && AllFound(st.windowIds, windows) && AllFound(st.bufferIds, buffers);
    var v := loaded.value;
    ResolvedKeepsIds(e.tabs, v.tabs, tabs, TabRepository.IdOf);
    ResolvedKeepsIds(e.windows, v.windows, windows, WindowRepository.IdOf);
    ResolvedKeepsIds(e.buffers, v.buffers, buffers, BufferRepository.IdOf);
  }

  /** When the repositories hold exactly the session's entities under their
      identifiers, saving and loading gives back the very same session. */
  lemma SaveThenGetExact(
    er: EditorRepo,
    e: Editor,
    tabs: TabRepository.TabRepo,
    windows: WindowRepository.WindowRepo,
    buffers: BufferRepository.BufferRepo)
    requires forall i :: 0 <= i < |e.tabs| ==> TabRepository.FindById(tabs, e.tabs[i].id) == Ok(e.tabs[i])
    requires forall i :: 0 <= i < |e.windows| ==> WindowRepository.FindById(windows, e.windows[i].id) == Ok(e.windows[i])
    requires forall i :: 0 <= i < |e.buffers| ==> BufferRepository.FindById(buffers, e.buffers[i].id) == Ok(e.buffers[i])
    ensures Get(Save(er, e), tabs, windows, buffers).0 == Ok(e)
  {
    var st := Flatten(e);
    assert AllFound(st.tabIds, tabs) && AllFound(st.windowIds, windows) && AllFound(st.bufferIds, buffers);
    var v := Get(Save(er, e), tabs, windows, buffers).0.value;
    assert v.tabs == e.tabs;
    assert v.windows == e.windows;
    assert v.buffers == e.buffers;
  }

  /** A saved session loads only if every identifier it lists resolves: one
      tab, window or buffer missing from its repository fails the load. */
  lemma SaveThenGetNeedsEveryId(
    er: EditorRepo,
    e: Editor,
    tabs: TabRepository.TabRepo,
    windows: WindowRepository.WindowRepo,
    buffers: BufferRepository.BufferRepo)
    ensures Get(Save(er, e), tabs, windows, buffers).0.Ok? <==>
      && (forall i :: 0 <= i < |e.tabs| ==> e.tabs[i].id in tabs.entries)
      && (forall i :: 0 <= i < |e.windows| ==> e.windows[i].id in windows.entries)
      && (forall i :: 0 <= i < |e.buffers| ==> e.buffers[i].id in buffers.entries)
  {
    var st := Flatten(e);
    assert AllFound(st.tabIds, tabs) <==> forall i :: 0 <= i < |e.tabs| ==> e.tabs[i].id in tabs.entries;
    assert AllFound(st.windowIds, windows) <==> forall i :: 0 <= i < |e.windows| ==> e.windows[i].id in windows.entries;
    assert AllFound(st.bufferIds, buffers) <==> forall i :: 0 <= i < |e.buffers| ==> e.buffers[i].id in buffers.entries;
  }

  /** A failed load reports the first missing identifier of the first list
      that has one, tabs before windows before buffers, and leaves as the
      current session the mode, the settings and whatever had been looked
      up by then; lists after the failing one stay empty. */
  lemma GetFailureLeavesPartialEditor(
    er: EditorRepo,
    tabs: TabRepository.TabRepo,
    windows: WindowRepository.WindowRepo,
    buffers: BufferRepository.BufferRepo)
    requires er.backing.Holds?
    requires Get(er, tabs, windows, buffers).0.Err?
    ensures var st := er.backing.state;
      var err := Get(er, tabs, windows, buffers).0.error;
      var partial := Get(er, tabs, windows, buffers).1.editor.value;
      && ResolvedPrefix(partial.tabs, st.tabIds, tabs)
      && ResolvedPrefix(partial.windows, st.windowIds, windows)
      && ResolvedPrefix(partial.buffers, st.bufferIds, buffers)
      && (!AllFound(st.tabIds, tabs) ==>
            && err == NotFound(TabEntity, st.tabIds[|partial.tabs|])
            && partial.windows == [] && partial.buffers == [])
      && (AllFound(st.tabIds, tabs) && !AllFound(st.windowIds, windows) ==>
            && err == NotFound(WindowEntity, st.windowIds[|partial.windows|])
            && |partial.tabs| == |st.tabIds| && partial.buffers == [])
      && (AllFound(st.tabIds, tabs) && AllFound(st.windowIds, windows) ==>
            && err == NotFound(BufferEntity, st.bufferIds[|partial.buffers|])
            && |partial.tabs| == |st.tabIds| && |partial.windows| == |st.windowIds|)
  {
  }

  /** A load that fails on a missing tab still replaced the current session
      with a session holding no windows and no buffers. */
  lemma GetFailureOverwritesEditor(
    er: EditorRepo,
    tabs: TabRepository.TabRepo,
    windows: WindowRepository.WindowRepo,
    buffers: BufferRepository.BufferRepo,
    previous: Editor)
    requires er.editor == Some(previous) && previous.windows != []
    requires er.backing.Holds? && |er.backing.state.tabIds| > 0
    requires er.backing.state.tabIds[0] !in tabs.entries
    ensures Get(er, tabs, windows, buffers).0 == Err(NotFound(TabEntity, er.backing.state.tabIds[0]))
    ensures Get(er, tabs, windows, buffers).1.editor != er.editor
  {
    GetFailureLeavesPartialEditor(er, tabs, windows, buffers);
  }

  /** Update needs a prior save: on a fresh, empty session file the
      repository starts from the default session and Update fails with
      "editor does not exist, cannot update", writing nothing. */
  lemma UpdateBeforeSaveFails(
    tabs: TabRepository.TabRepo,
    windows: WindowRepository.WindowRepo,
    buffers: BufferRepository.BufferRepo,
    e: Editor)
    ensures var er := Construct(Empty, tabs, windows, buffers);
      && er.editor == Some(NewEditor())
      && Update(er, e).0 == Fail(EditorDoesNotExist)
      && Message(Update(er, e).0.error) == "editor does not exist, cannot update"
      && Update(er, e).1.backing == Empty
  {
  }

  /** After a save, an update succeeds and a later load sees the updated
      settings, whatever the current session was. */
  lemma UpdateAfterSave(
    er: EditorRepo,
    first: Editor,
    second: Editor,
    tabs: TabRepository.TabRepo,
    windows: WindowRepository.WindowRepo,
    buffers: BufferRepository.BufferRepo)
    requires second.tabs == [] && second.windows == [] && second.buffers == []
    ensures Update(Save(er, first), second).0 == Pass
    ensures Get(Update(Save(er, first), second).1, tabs, windows, buffers).0.Ok?
    ensures Get(Update(Save(er, first), second).1, tabs, windows, buffers).0.value.settings == second.settings
  {
    var st := Flatten(second);
    assert st.tabIds == [] && st.windowIds == [] && st.bufferIds == [];
  }
}

=== FILE: id_store.dfy ===
/** The identifier-keyed table with an assignment counter that each of the
    buffer, window and tab repositories is built on. Each operation is one
    atomic step from a store value to a new store value. */
module IdStore {
  import opened Outcomes

  /** `entries` maps identifiers to stored entities; `nextId` is the
      identifier the next save of an unassigned (0) entity receives. */
  datatype Store<T> = Store(entries: map<int, T>, nextId: int)

  /** The counter starts at 1 and only ever grows, so it is never the
      unassigned identifier 0. */
  predicate Valid<T>(s: Store<T>) {
    s.nextId >= 1
  }

  /** Every entity is stored under its own identifier, as `idOf` reads it. */
  predicate KeysMatchIds<T>(s: Store<T>, idOf: T -> int) {
    forall k :: k in s.entries ==> idOf(s.entries[k]) == k
  }

  function New<T>(): (s: Store<T>)
    ensures s.entries == map[] && s.nextId == 1
    ensures Valid(s)
  {
    Store(map[], 1)
  }

  /** The stored entity, or NotFound naming the entity kind and identifier. */
  function Find<T>(s: Store<T>, kind: EntityKind, id: int): (r: Result<T>)
    ensures r.Ok? <==> id in s.entries
    ensures r.Ok? ==> r.value == s.entries[id]
    ensures r.Err? ==> r.error == NotFound(kind, id)
  {
    if id in s.entries then Ok(s.entries[id]) else Err(NotFound(kind, id))
  }

  /** The identifier a save of an entity carrying `requested` stores it
      under: the counter for the unassigned identifier 0, the entity's own
      identifier otherwise. */
  function AssignedId<T>(s: Store<T>, requested: int): (id: int)
    ensures requested == 0 ==> id == s.nextId
    ensures requested != 0 ==> id == requested
    ensures Valid(s) ==> id != 0
  {
    if requested == 0 then s.nextId else requested
  }

  /** Stores `e` under AssignedId(s, requested), advancing the counter only
      when an identifier was assigned. An existing entry under that
      identifier is overwritten. Always succeeds. */
  function Save<T>(s: Store<T>, requested: int, e: T): (s': Store<T>)
    ensures s'.entries.Keys == s.entries.Keys + {AssignedId(s, requested)}
    ensures s'.entries[AssignedId(s, requested)] == e
    ensures forall k :: k in s.entries && k != AssignedId(s, requested) ==> s'.entries[k] == s.entries[k]
    ensures requested == 0 ==> s'.nextId == s.nextId + 1
    ensures requested != 0 ==> s'.nextId == s.nextId
    ensures Valid(s) ==> Valid(s')
  {
    var id := AssignedId(s, requested);
    Store(s.entries[id := e], if requested == 0 then s.nextId + 1 else s.nextId)
  }

  /** Replaces the entity stored under `id`; NotFound with no change when
      there is none. */
  function Update<T>(s: Store<T>, kind: EntityKind, id: int, e: T): (r: (Outcome, Store<T>))
    ensures id !in s.entries ==> r.0 == Fail(NotFound(kind, id)) && r.1 == s
    ensures id in s.entries ==> r.0 == Pass
    ensures id in s.entries ==> r.1.entries.Keys == s.entries.Keys && r.1.entries[id] == e
    ensures forall k :: k in s.entries && k != id ==> r.1.entries[k] == s.entries[k]
    ensures r.1.nextId == s.nextId
  {
    if id !in s.entries then (Fail(NotFound(kind, id)), s)
    else (Pass, Store(s.entries[id := e], s.nextId))
  }

  /** Removes the entity stored under `id`; NotFound with no change when
      there is none. The counter is left alone, so the identifier is not
      handed out again. */
  function Delete<T>(s: Store<T>, kind: EntityKind, id: int): (r: (Outcome, Store<T>))
    ensures id !in s.entries ==> r.0 == Fail(NotFound(kind, id)) && r.1 == s
    ensures id in s.entries ==> r.0 == Pass && r.1.entries.Keys == s.entries.Keys - {id}
    ensures forall k :: k in r.1.entries ==> k in s.entries && r.1.entries[k] == s.entries[k]
    ensures Find(r.1, kind, id).Err?
    ensures r.1.nextId == s.nextId
  {
    if id !in s.entries then (Fail(NotFound(kind, id)), s)
    else (Pass, Store(s.entries - {id}, s.nextId))
  }

  /** `order` lists each identifier of `keys` exactly once. */
  ghost predicate Enumerates(order: seq<int>, keys: set<int>) {
    && (forall i, j :: 0 <= i < j < |order| ==> order[i] != order[j])
    && (forall i :: 0 <= i < |order| ==> order[i] in keys)
    && (forall k :: k in keys ==> k in order)
  }

  /** Every stored entity, one per identifier, in an order the store does
      not promise; `order` is the identifier behind each position. */
  method List<T>(s: Store<T>) returns (items: seq<T>, ghost order: seq<int>)
    ensures |items| == |s.entries|
    ensures |order| == |items| && Enumerates(order, s.entries.Keys)
    ensures forall i :: 0 <= i < |items| ==> order[i] in s.entries && items[i] == s.entries[order[i]]
  {
    var rest := s.entries.Keys;
    items, order := [], [];
    while rest != {}
      invariant rest <= s.entries.Keys
      invariant |order| == |items| && |order| + |rest| == |s.entries.Keys|
      invariant forall i, j :: 0 <= i < j < |order| ==> order[i] != order[j]
      invariant forall i :: 0 <= i < |order| ==> order[i] in s.entries.Keys && order[i] !in rest
      invariant forall key :: key in s.entries.Keys ==> key in rest || key in order
      invariant forall i :: 0 <= i < |items| ==> items[i] == s.entries[order[i]]
      decreases |rest|
    {
      HasElement(rest);
      var k :| k in rest;
      items, order := items + [s.entries[k]], order + [k];
      rest := rest - {k};
    }
  }

  lemma EmptyWhenNoElement(xs: set<int>)
    ensures (forall x :: x !in xs) ==> xs == {}
  {
    if forall x :: x !in xs {
      assert xs == {};
    }
  }

  /** A non-empty set has an element to pick. It supplies the witness
      for the `:|` choices in `List` and `WindowRepository.FindByBufferId`. */
  lemma HasElement(xs: set<int>)
    requires xs != {}
    ensures exists x :: x in xs
  {
    EmptyWhenNoElement(xs);
  }

  /** One call on a store, as a caller could issue it. */
  datatype Op<T> = SaveOp(requested: int, entity: T) | UpdateOp(id: int, entity: T) | DeleteOp(id: int)

  /** The store after `op`, and the identifier it assigned, if any. */
  function Apply<T>(s: Store<T>, kind: EntityKind, op: Op<T>): (Store<T>, Option<int>) {
    match op
    case SaveOp(requested, e) =>
      (Save(s, requested, e), if requested == 0 then Some(AssignedId(s, requested)) else None)
    case UpdateOp(id, e) => (Update(s, kind, id, e).1, None)
    case DeleteOp(id) => (Delete(s, kind, id).1, None)
  }

  /** The store after running `ops` in order, and the identifiers the
      saves of unassigned entities received, in order. */
  function Run<T>(s: Store<T>, kind: EntityKind, ops: seq<Op<T>>): (Store<T>, seq<int>)
    decreases |ops|
  {
    if |ops| == 0 then (s, [])
    else
      var (s1, handed) := Apply(s, kind, ops[0]);
      var (s2, later) := Run(s1, kind, ops[1..]);
      (s2, (if handed.Some? then [handed.value] else []) + later)
  }

  /** Over any sequence of calls the counter never decreases, and the
      identifiers handed to unassigned entities are at least the starting
      counter, below the final counter and strictly increasing, so none is
      handed out twice, not even after it was deleted. */
  lemma {:induction false} RunAssignsFreshIds<T>(s: Store<T>, kind: EntityKind, ops: seq<Op<T>>)
    requires Valid(s)
    ensures Run(s, kind, ops).0.nextId >= s.nextId
    ensures Valid(Run(s, kind, ops).0)
    ensures forall i :: 0 <= i < |Run(s, kind, ops).1| ==>
      s.nextId <= Run(s, kind, ops).1[i] < Run(s, kind, ops).0.nextId
    ensures forall i, j :: 0 <= i < j < |Run(s, kind, ops).1| ==>
      Run(s, kind, ops).1[i] < Run(s, kind, ops).1[j]
    decreases |ops|
  {
    if |ops| > 0 {
      var step := Apply(s, kind, ops[0]);
      var s1, handed := step.0, step.1;
      assert s1.nextId >= s.nextId && Valid(s1);
      assert handed.Some? ==> handed.value == s.nextId && s1.nextId == s.nextId + 1;
      RunAssignsFreshIds(s1, kind, ops[1..]);
    }
  }

  /** A save under an explicit identifier does not move the counter, so a
      later save of an unassigned entity can land on that identifier and
      overwrite what was stored there. */
  lemma ExplicitSaveCanBeOverwritten<T>(e1: T, e2: T)
    ensures var s1 := Save(New<T>(), 1, e1);
      && s1.entries[1] == e1 && s1.nextId == 1
      && Save(s1, 0, e2).entries == map[1 := e2]
  {
  }
}

=== FILE: outcomes.dfy ===
/** Errors and failure-carrying results shared by the entity model, the
    entity repositories and the session repository. */
module Outcomes {

  /** The kind of entity a repository stores; it names the entity in a
      not-found error. */
  datatype EntityKind = BufferEntity | WindowEntity | TabEntity

  /** Every error the session-state layer reports. */
  datatype Error =
    | NotFound(kind: EntityKind, id: int)  // an identifier absent from a repository
    | LineOutOfRange                       // Buffer.GetLine with a bad line index
    | EditorDoesNotExist                   // session Update with no prior durable state
    | StoreUnreadable                      // the session file could not be read or parsed

  datatype Option<+T> = None | Some(value: T)

  /** A value or the error that prevented computing it. */
  datatype Result<+T> = Ok(value: T) | Err(error: Error)

  /** Success or failure of an operation whose only product is a new state. */
  datatype Outcome = Pass | Fail(error: Error)

  function KindName(k: EntityKind): string {
    match k
    case BufferEntity => "buffer"
    case WindowEntity => "window"
    case TabEntity => "tab"
  }

  function DigitChar(d: nat): char
    requires d < 10
  {
    ('0' as int + d) as char
  }

  /** Decimal rendering of a natural number, most significant digit first,
      as Go's `%d` writes it: at least one digit, nothing but digits, and
      no leading zero except in "0" itself. */
  function NatToString(n: nat): (s: string)
    ensures |s| >= 1
    ensures forall i :: 0 <= i < |s| ==> '0' <= s[i] <= '9'
    ensures (|s| > 1) == (n >= 10)
    ensures s[0] == '0' ==> n == 0
    decreases n
  {
    if n < 10 then [DigitChar(n)] else NatToString(n / 10) + [DigitChar(n % 10)]
  }

  /** The number a string of decimal digits denotes, most significant
      digit first. */
  function DigitsValue(s: string): nat
    requires forall i :: 0 <= i < |s| ==> '0' <= s[i] <= '9'
  {
    if |s| == 0 then 0 else DigitsValue(s[..|s| - 1]) * 10 + (s[|s| - 1] as int - '0' as int)
  }

  /** Reading the rendered digits back gives the number: the rendering is
      the decimal numeral and not merely some string of digits. */
  lemma {:induction false} NatToStringValue(n: nat)
    ensures DigitsValue(NatToString(n)) == n
    decreases n
  {
    var s := NatToString(n);
    if n >= 10 {
      NatToStringValue(n / 10);
      assert s[..|s| - 1] == NatToString(n / 10);
    } else {
      assert s[..0] == "";
    }
  }

  /** Go's `%d` of an integer: a leading '-' exactly for a negative value,
      followed by the decimal digits of its magnitude. */
  function IntToString(n: int): (s: string)
    ensures |s| >= 1
    ensures (s[0] == '-') <==> n < 0
    ensures forall i :: (if n < 0 then 1 else 0) <= i < |s| ==> '0' <= s[i] <= '9'
  {
    if n < 0 then "-" + NatToString(-n) else NatToString(n)
  }

  /** The digits after the sign are the numeral of the magnitude. */
  lemma IntToStringValue(n: int)
    ensures DigitsValue(IntToString(n)[(if n < 0 then 1 else 0)..]) == (if n < 0 then -n else n)
  {
    if n < 0 {
      assert IntToString(n)[1..] == NatToString(-n);
      NatToStringValue(-n);
    } else {
      NatToStringValue(n);
    }
  }

  /** A numeral with a leading digit other than '0' denotes at least 1. */
  lemma {:induction false} LeadingDigitPositive(s: string)
    requires |s| >= 1 && forall i :: 0 <= i < |s| ==> '0' <= s[i] <= '9'
    requires s[0] != '0'
    ensures DigitsValue(s) >= 1
    decreases |s|
  {
    if |s| > 1 {
      var p := s[..|s| - 1];
      assert p[0] == s[0];
      LeadingDigitPositive(p);
    } else {
      assert s[..0] == "";
    }
  }

  /** The rendering is the only numeral of `n` without a leading zero, so
      it is exactly what `%d` prints. */
  lemma {:induction false} NatToStringUnique(s: string, n: nat)
    requires |s| >= 1 && forall i :: 0 <= i < |s| ==> '0' <= s[i] <= '9'
    requires s[0] == '0' ==> |s| == 1
    requires DigitsValue(s) == n
    ensures s == NatToString(n)
    decreases |s|
  {
    var p := s[..|s| - 1];
    var d := s[|s| - 1] as int - '0' as int;
    if |s| == 1 {
      assert p == "";
      assert n == d && DigitChar(d) == s[0];
    } else {
      assert p[0] == s[0];
      LeadingDigitPositive(p);
      assert n / 10 == DigitsValue(p) && n % 10 == d;
      NatToStringUnique(p, n / 10);
      assert DigitChar(n % 10) == s[|s| - 1];
      assert s == p + [s[|s| - 1]];
    }
  }

  /** The text of each error as the Go code words it. StoreUnreadable
      stands for an operating-system or JSON error passed through
      unchanged, so its text here is only a placeholder. */
  function Message(e: Error): string {
    match e
    case NotFound(k, id) => KindName(k) + " with id " + IntToString(id) + " not found"
    case LineOutOfRange => "line number out of range"
    case EditorDoesNotExist => "editor does not exist, cannot update"
    case StoreUnreadable => "editor state could not be read"
  }

  /** A not-found text for a two-digit identifier, as `fmt.Errorf` renders
      the "%d" verb. */
  lemma NotFoundWindowMessage()
    ensures Message(NotFound(WindowEntity, 12)) == "window with id 12 not found"
  {
    assert NatToString(1) == ['1'] && DigitChar(2) == '2';
    assert NatToString(12) == NatToString(1) + [DigitChar(2)];
    assert IntToString(12) == "12";
    assert KindName(WindowEntity) + " with id " == "window with id ";
  }

  /** A negative identifier is rendered with a leading '-'. */
  lemma NotFoundTabMessage()
    ensures Message(NotFound(TabEntity, -3)) == "tab with id -3 not found"
  {
    assert NatToString(3) == ['3'];
    assert IntToString(-3) == "-3";
    assert KindName(TabEntity) + " with id " == "tab with id ";
  }

  /** The unassigned identifier 0 is rendered as the single digit. */
  lemma NotFoundBufferMessage()
    ensures Message(NotFound(BufferEntity, 0)) == "buffer with id 0 not found"
  {
    assert NatToString(0) == ['0'];
    assert IntToString(0) == "0";
  }

  /** The fixed texts of the other errors. */
  lemma FixedMessageExamples()
    ensures Message(LineOutOfRange) == "line number out of range"
    ensures Message(EditorDoesNotExist) == "editor does not exist, cannot update"
  {
  }
}

=== FILE: tab.dfy ===
/** A tab: an ordered group of windows with at most one designated active
    window. */
module TabModel {
  import opened Outcomes
  import opened WindowModel

  /** `active` holds the active window's value; after the last window is
      removed it may name a window that is no longer in `windows`. */
  datatype Tab = Tab(id: int, windows: seq<Window>, active: Option<Window>)

  function NewTab(id: int): (t: Tab)
    ensures t.id == id && t.windows == [] && t.active == None
    ensures ActiveIsMember(t) && ActiveWhenNonEmpty(t)
  {
    Tab(id, [], None)
  }

  /** The active window, if any, is one of the tab's windows. */
  predicate ActiveIsMember(t: Tab) {
    t.active.None? || t.active.value in t.windows
  }

  /** A tab with windows has an active one. */
  predicate ActiveWhenNonEmpty(t: Tab) {
    |t.windows| > 0 ==> t.active.Some?
  }

  /** Position of the first window with identifier `id`, scanning from the
      front. */
  function FirstIndexOf(ws: seq<Window>, id: int): (r: Option<nat>)
    ensures r.Some? ==> r.value < |ws| && ws[r.value].id == id
    ensures r.Some? ==> forall j :: 0 <= j < r.value ==> ws[j].id != id
    ensures r.None? <==> forall j :: 0 <= j < |ws| ==> ws[j].id != id
  {
    if |ws| == 0 then None
    else if ws[0].id == id then Some(0)
    else
      match FirstIndexOf(ws[1..], id)
      case None => None
      case Some(k) => Some(k + 1)
  }

  /** Appends `w`; it becomes active only when no window was active. */
  function AddWindow(t: Tab, w: Window): (r: Tab)
    ensures r.id == t.id
    ensures r.windows == t.windows + [w]
    ensures t.active.None? ==> r.active == Some(w)
    ensures t.active.Some? ==> r.active == t.active
  {
    var ws := t.windows + [w];
    if t.active.None? then Tab(t.id, ws, Some(w)) else Tab(t.id, ws, t.active)
  }

  /** Removes the first window with identifier `windowId`. When the active
      window carries that identifier and windows remain, the new first
      window becomes active; otherwise the active window is left as it
      was, even when no window remains. The Go code reads the active
      window's identifier as soon as a match is found, so a match with no
      active window is outside its domain. */
  function RemoveWindow(t: Tab, windowId: int): (r: Tab)
    requires FirstIndexOf(t.windows, windowId).Some? ==> t.active.Some?
    ensures r.id == t.id
    ensures FirstIndexOf(t.windows, windowId).None? ==> r == t
    ensures FirstIndexOf(t.windows, windowId).Some? ==>
      var i := FirstIndexOf(t.windows, windowId).value;
      && r.windows == t.windows[..i] + t.windows[i + 1..]
      && multiset(r.windows) + multiset{t.windows[i]} == multiset(t.windows)
    ensures FirstIndexOf(t.windows, windowId).Some? ==>
      if t.active.value.id == windowId && |r.windows| > 0
      then r.active == Some(r.windows[0])
      else r.active == t.active
  {
    match FirstIndexOf(t.windows, windowId)
    case None => t
    case Some(i) =>
      var ws := t.windows[..i] + t.windows[i + 1..];
      assert t.windows == t.windows[..i] + [t.windows[i]] + t.windows[i + 1..];
      if t.active.value.id == windowId && |ws| > 0 then Tab(t.id, ws, Some(ws[0]))
      else Tab(t.id, ws, t.active)
  }

  /** Makes the first window with identifier `windowId` active; does
      nothing when there is none. The windows never change. */
  function SetActiveWindow(t: Tab, windowId: int): (r: Tab)
    ensures r.id == t.id && r.windows == t.windows
    ensures FirstIndexOf(t.windows, windowId).None? ==> r.active == t.active
    ensures FirstIndexOf(t.windows, windowId).Some? ==>
      r.active == Some(t.windows[FirstIndexOf(t.windows, windowId).value])
    ensures r.active.Some? && r.active != t.active ==> r.active.value.id == windowId
  {
    match FirstIndexOf(t.windows, windowId)
    case None => t
    case Some(i) => Tab(t.id, t.windows, Some(t.windows[i]))
  }

  /** Adding a window keeps the active window among the windows and makes
      a non-empty tab have one. */
  lemma AddWindowKeepsInvariants(t: Tab, w: Window)
    requires ActiveIsMember(t)
    ensures ActiveIsMember(AddWindow(t, w)) && ActiveWhenNonEmpty(AddWindow(t, w))
  {
    var r := AddWindow(t, w);
    if t.active.Some? {
      assert t.active.value in t.windows;
      assert r.windows == t.windows + [w];
    }
  }

  /** Choosing the active window keeps both invariants. */
  lemma SetActiveWindowKeepsInvariants(t: Tab, windowId: int)
    requires ActiveIsMember(t) && ActiveWhenNonEmpty(t)
    ensures ActiveIsMember(SetActiveWindow(t, windowId))
    ensures ActiveWhenNonEmpty(SetActiveWindow(t, windowId))
  {
  }

  /** Removing a window keeps the active window among the windows, except
      when the removed window was the last one, and never loses the active
      designation of a tab that had one. */
  lemma RemoveWindowKeepsInvariants(t: Tab, windowId: int)
    requires ActiveIsMember(t) && ActiveWhenNonEmpty(t)
    ensures |RemoveWindow(t, windowId).windows| > 0 ==> ActiveIsMember(RemoveWindow(t, windowId))
    ensures ActiveWhenNonEmpty(RemoveWindow(t, windowId))
    ensures t.active.Some? ==> RemoveWindow(t, windowId).active.Some?
  {
    var r := RemoveWindow(t, windowId);
    match FirstIndexOf(t.windows, windowId)
    case None =>
    case Some(i) =>
      if |r.windows| > 0 && !(t.active.value.id == windowId) {
        var a := t.active.value;
        var j :| 0 <= j < |t.windows| && t.windows[j] == a;
        assert j != i;
        if j < i {
          assert r.windows[j] == a;
        } else {
          assert r.windows[j - 1] == a;
        }
      }
  }

  /** Removing the only window leaves the tab empty with its active window
      still set to the removed one. */
  lemma RemoveLastWindowKeepsActive(t: Tab, w: Window)
    requires t.windows == [w] && t.active == Some(w)
    ensures RemoveWindow(t, w.id) == Tab(t.id, [], Some(w))
    ensures !ActiveIsMember(RemoveWindow(t, w.id))
  {
    assert FirstIndexOf(t.windows, w.id) == Some(0);
  }

  /** Windows 1, 2, 3 added to a new tab: 1 is active; choosing 2 makes it
      active; removing 2 leaves windows 1 and 3 with 1 active again. */
  lemma TabWindowScenario(w1: Window, w2: Window, w3: Window)
    requires w1.id == 1 && w2.id == 2 && w3.id == 3
    ensures var t := AddWindow(AddWindow(AddWindow(NewTab(0), w1), w2), w3);
      && t.active == Some(w1)
      && SetActiveWindow(t, 2).active == Some(w2)
      && RemoveWindow(SetActiveWindow(t, 2), 2).windows == [w1, w3]
      && RemoveWindow(SetActiveWindow(t, 2), 2).active == Some(w1)
  {
    var t := AddWindow(AddWindow(AddWindow(NewTab(0), w1), w2), w3);
    assert t.windows == [w1, w2, w3];
    assert FirstIndexOf(t.windows, 2) == Some(1);
    var s := SetActiveWindow(t, 2);
    assert s.windows[..1] + s.windows[2..] == [w1, w3];
  }
}

=== FILE: tab_repository.dfy ===
/** The in-memory tab repository: tabs keyed by identifier, with a counter
    that assigns identifiers to new tabs. */
module TabRepository {
  import opened Outcomes
  import TabModel
  import IdStore

  type Tab = TabModel.Tab
  type TabRepo = IdStore.Store<Tab>

  /** The identifier a tab carries. */
  function IdOf(t: Tab): int {
    t.id
  }

  /** An empty repository whose first assigned identifier is 1. */
  function New(): (r: TabRepo)
    ensures r.entries == map[] && r.nextId == 1
    ensures IdStore.Valid(r) && IdStore.KeysMatchIds(r, IdOf)
  {
    IdStore.New()
  }

  function FindById(r: TabRepo, id: int): (res: Result<Tab>)
    ensures res.Ok? <==> id in r.entries
    ensures res.Ok? ==> res.value == r.entries[id]
    ensures res.Err? ==> res.error == NotFound(TabEntity, id)
  {
    IdStore.Find(r, TabEntity, id)
  }

  /** Stores `t`, first giving it the counter's identifier when it carries
      the unassigned identifier 0; returns the tab as stored. Any tab
      already under that identifier is replaced. Never fails. */
  function Save(r: TabRepo, t: Tab): (res: (Tab, TabRepo))
    ensures t.id == 0 ==> res.0.id == r.nextId && res.1.nextId == r.nextId + 1
    ensures t.id != 0 ==> res.0 == t && res.1.nextId == r.nextId
    ensures res.0 == t.(id := res.0.id)
    ensures IdStore.Valid(r) ==> res.0.id != 0
    ensures FindById(res.1, res.0.id) == Ok(res.0)
    ensures forall k :: k != res.0.id ==> FindById(res.1, k) == FindById(r, k)
    ensures IdStore.KeysMatchIds(r, IdOf) ==> IdStore.KeysMatchIds(res.1, IdOf)
  {
    var saved := t.(id := IdStore.AssignedId(r, t.id));
    (saved, IdStore.Save(r, t.id, saved))
  }

  /** Replaces the whole tab stored under `t`'s identifier, its windows and
      active window included; NotFound with no change when there is none. */
  function Update(r: TabRepo, t: Tab): (res: (Outcome, TabRepo))
    ensures t.id !in r.entries ==> res.0 == Fail(NotFound(TabEntity, t.id)) && res.1 == r
    ensures t.id in r.entries ==> res.0 == Pass && FindById(res.1, t.id) == Ok(t)
    ensures forall k :: k != t.id ==> FindById(res.1, k) == FindById(r, k)
    ensures res.1.nextId == r.nextId
    ensures IdStore.KeysMatchIds(r, IdOf) ==> IdStore.KeysMatchIds(res.1, IdOf)
  {
    IdStore.Update(r, TabEntity, t.id, t)
  }

  /** Removes the tab stored under `id`; NotFound with no change when there
      is none. The counter is not moved back. */
  function Delete(r: TabRepo, id: int): (res: (Outcome, TabRepo))
    ensures id !in r.entries ==> res.0 == Fail(NotFound(TabEntity, id)) && res.1 == r
    ensures id in r.entries ==> res.0 == Pass && |res.1.entries| == |r.entries| - 1
    ensures FindById(res.1, id) == Err(NotFound(TabEntity, id))
    ensures forall k :: k != id ==> FindById(res.1, k) == FindById(r, k)
    ensures res.1.nextId == r.nextId
    ensures IdStore.KeysMatchIds(r, IdOf) ==> IdStore.KeysMatchIds(res.1, IdOf)
  {
    IdStore.Delete(r, TabEntity, id)
  }

  /** Every stored tab once, in no promised order. */
  method List(r: TabRepo) returns (tabs: seq<Tab>, ghost order: seq<int>)
    ensures |tabs| == |r.entries|
    ensures |order| == |tabs| && IdStore.Enumerates(order, r.entries.Keys)
    ensures forall i :: 0 <= i < |tabs| ==> FindById(r, order[i]) == Ok(tabs[i])
  {
    tabs, order := IdStore.List(r);
  }

  /** A tab saved, deleted and then looked up is not found, and a second
      unassigned save does not reuse the deleted identifier. */
  lemma SaveDeleteFind(r: TabRepo, t: Tab, u: Tab)
    requires IdStore.Valid(r) && t.id == 0 && u.id == 0
    ensures var (saved, r1) := Save(r, t);
      var r2 := Delete(r1, saved.id).1;
      && Delete(r1, saved.id).0 == Pass
      && FindById(r2, saved.id).Err?
      && Save(r2, u).0.id > saved.id
  {
  }
}

=== FILE: window.dfy ===
/** A window: a view onto one buffer with its own cursor and scroll
    position. */
module WindowModel {

  /** Zero-based cursor position inside the displayed buffer. */
  datatype Cursor = Cursor(line: int, column: int)

  /** The visible region: first line and column shown, and its size in
      lines and columns. */
  datatype Viewport = Viewport(topLine: int, leftColumn: int, height: int, width: int)

  /** `bufferId` is a weak reference: nothing checks that the buffer
      exists. */
  datatype Window = Window(id: int, bufferId: int, cursor: Cursor, viewport: Viewport)

  const DefaultHeight: int := 24
  const DefaultWidth: int := 80

  /** Positions are never negative and the viewport has a positive size.
      The Go code states no such rule; this is a sanity check the model
      adds about the constructor's defaults. */
  predicate WellFormed(w: Window) {
    && w.cursor.line >= 0 && w.cursor.column >= 0
    && w.viewport.topLine >= 0 && w.viewport.leftColumn >= 0
    && w.viewport.height > 0 && w.viewport.width > 0
  }

  /** The cursor lies inside the viewport. Also a check the model adds;
      nothing in the Go code keeps it. */
  predicate CursorVisible(w: Window) {
    && w.viewport.topLine <= w.cursor.line < w.viewport.topLine + w.viewport.height
    && w.viewport.leftColumn <= w.cursor.column < w.viewport.leftColumn + w.viewport.width
  }

  /** A window onto `bufferId`, cursor at the origin, showing the top-left
      24 lines by 80 columns. */
  function NewWindow(id: int, bufferId: int): (w: Window)
    ensures w.id == id && w.bufferId == bufferId
    ensures w.cursor.line == 0 && w.cursor.column == 0
    ensures w.viewport.topLine == 0 && w.viewport.leftColumn == 0
    ensures w.viewport.height == 24 && w.viewport.width == 80
    ensures WellFormed(w) && CursorVisible(w)
  {
    Window(id, bufferId, Cursor(0, 0), Viewport(0, 0, DefaultHeight, DefaultWidth))
  }
}

=== FILE: window_repository.dfy ===
/** The in-memory window repository: windows keyed by identifier, with a
    counter that assigns identifiers to new windows, and a lookup by the
    buffer a window shows. */
module WindowRepository {
  import opened Outcomes
  import WindowModel
  import IdStore

  type Window = WindowModel.Window
  type WindowRepo = IdStore.Store<Window>

  /** The identifier a window carries. */
  function IdOf(w: Window): int {
    w.id
  }

  /** An empty repository whose first assigned identifier is 1. */
  function New(): (r: WindowRepo)
    ensures r.entries == map[] && r.nextId == 1
    ensures IdStore.Valid(r) && IdStore.KeysMatchIds(r, IdOf)
  {
    IdStore.New()
  }

  function FindById(r: WindowRepo, id: int): (res: Result<Window>)
    ensures res.Ok? <==> id in r.entries
    ensures res.Ok? ==> res.value == r.entries[id]
    ensures res.Err? ==> res.error == NotFound(WindowEntity, id)
  {
    IdStore.Find(r, WindowEntity, id)
  }

  /** Stores `w`, first giving it the counter's identifier when it carries
      the unassigned identifier 0; returns the window as stored. Any window
      already under that identifier is replaced. Never fails. */
  function Save(r: WindowRepo, w: Window): (res: (Window, WindowRepo))
    ensures w.id == 0 ==> res.0.id == r.nextId && res.1.nextId == r.nextId + 1
    ensures w.id != 0 ==> res.0 == w && res.1.nextId == r.nextId
    ensures res.0 == w.(id := res.0.id)
    ensures IdStore.Valid(r) ==> res.0.id != 0
    ensures FindById(res.1, res.0.id) == Ok(res.0)
    ensures forall k :: k != res.0.id ==> FindById(res.1, k) == FindById(r, k)
    ensures IdStore.KeysMatchIds(r, IdOf) ==> IdStore.KeysMatchIds(res.1, IdOf)
  {
    var saved := w.(id := IdStore.AssignedId(r, w.id));
    (saved, IdStore.Save(r, w.id, saved))
  }

  /** Replaces the whole window stored under `w`'s identifier, buffer
      reference included; NotFound with no change when there is none. */
  function Update(r: WindowRepo, w: Window): (res: (Outcome, WindowRepo))
    ensures w.id !in r.entries ==> res.0 == Fail(NotFound(WindowEntity, w.id)) && res.1 == r
    ensures w.id in r.entries ==> res.0 == Pass && FindById(res.1, w.id) == Ok(w)
    ensures forall k :: k != w.id ==> FindById(res.1, k) == FindById(r, k)
    ensures res.1.nextId == r.nextId
    ensures IdStore.KeysMatchIds(r, IdOf) ==> IdStore.KeysMatchIds(res.1, IdOf)
  {
    IdStore.Update(r, WindowEntity, w.id, w)
  }

  /** Removes the window stored under `id`; NotFound with no change when
      there is none. Tabs holding the window are not touched. */
  function Delete(r: WindowRepo, id: int): (res: (Outcome, WindowRepo))
    ensures id !in r.entries ==> res.0 == Fail(NotFound(WindowEntity, id)) && res.1 == r
    ensures id in r.entries ==> res.0 == Pass && |res.1.entries| == |r.entries| - 1
    ensures FindById(res.1, id) == Err(NotFound(WindowEntity, id))
    ensures forall k :: k != id ==> FindById(res.1, k) == FindById(r, k)
    ensures res.1.nextId == r.nextId
    ensures IdStore.KeysMatchIds(r, IdOf) ==> IdStore.KeysMatchIds(res.1, IdOf)
  {
    IdStore.Delete(r, WindowEntity, id)
  }

  /** Every stored window once, in no promised order. */
  method List(r: WindowRepo) returns (windows: seq<Window>, ghost order: seq<int>)
    ensures |windows| == |r.entries|
    ensures |order| == |windows| && IdStore.Enumerates(order, r.entries.Keys)
    ensures forall i :: 0 <= i < |windows| ==> FindById(r, order[i]) == Ok(windows[i])
  {
    windows, order := IdStore.List(r);
  }

  /** The stored windows that show buffer `bufferId`, each once, in no
      promised order; empty, not an error, when none does. */
  method FindByBufferId(r: WindowRepo, bufferId: int) returns (found: seq<Window>, ghost order: seq<int>)
    ensures forall i :: 0 <= i < |found| ==> found[i].bufferId == bufferId
    ensures |order| == |found|
    ensures forall i, j :: 0 <= i < j < |order| ==> order[i] != order[j]
    ensures forall i :: 0 <= i < |found| ==> FindById(r, order[i]) == Ok(found[i])
    ensures forall k :: k in r.entries && r.entries[k].bufferId == bufferId ==> k in order
    ensures (forall k :: k in r.entries ==> r.entries[k].bufferId != bufferId) ==> found == []
  {
    var rest := r.entries.Keys;
    found, order := [], [];
    while rest != {}
      invariant rest <= r.entries.Keys
      invariant |order| == |found|
      invariant forall i, j :: 0 <= i < j < |order| ==> order[i] != order[j]
      invariant forall i :: 0 <= i < |order| ==> order[i] in r.entries && order[i] !in rest
      invariant forall i :: 0 <= i < |found| ==> found[i] == r.entries[order[i]] && found[i].bufferId == bufferId
      invariant forall k :: k in r.entries && r.entries[k].bufferId == bufferId ==> k in rest || k in order
      decreases |rest|
    {
      IdStore.HasElement(rest);
      var k :| k in rest;
      if r.entries[k].bufferId == bufferId {
        found, order := found + [r.entries[k]], order + [k];
      }
      rest := rest - {k};
    }
    if found != [] {
      assert found[0] == r.entries[order[0]];
    }
  }
}
